=== FILE: README.md ===
# Blacklist words: screen state machine over the word store

This project models the "words" blacklist of GFastKeyboard in Dafny. It has two parts.

- **The `words` table and its DAO** (`WordsDatabase.kt`). A `Word` is a three-field datatype: id, text and the "matched" flag `isSelected`. Two words are equal exactly when all three fields are equal, as with a Kotlin data class. The table is a `map<int, Word>` from primary key to row. Next to it the model keeps the AUTOINCREMENT high-water mark, so a generated key is never reused. The DAO calls are pure functions on that store:
  - `insertAll` (REPLACE on conflict; id 0 means "generate one");
  - `updateUsers` and `update` (by primary key; a missing row is ignored);
  - `delete` (by primary key only);
  - `deleteAll`;
  - `getAll` (ordered by text);
  - `getSelected`.
- **The editing logic of the word-list screen** (`BlackListScreen.kt`). The screen state is:
  - the store;
  - the pending-delete list;
  - the add-word dialog flag and its draft;
  - the enabled flag of the back callback.

  Each click handler is one transition function:
  - add, type, confirm, dismiss and cancel in the dialog;
  - click and long click on a card;
  - cancel, select-all and delete in the top bar;
  - back.

  `Step` dispatches a user event to the handler the screen would run, under the same guards the UI applies: dialog events only while the dialog is shown, card events only on listed cards, top-bar buttons only in delete mode, back only while enabled. `Run` folds `Step` over a sequence of events.

The list the screen shows is `getAll` of the store and the matched words are `getSelected` of it. Each store call is one atomic step, and every handler sees the store as left by the previous one.

`text_order.dfy` defines the order `ORDER BY word ASC` uses. SQLite's default BINARY collation compares UTF-8 bytes, and UTF-8 byte order agrees with code-point order. So comparing Dafny `char`s (Unicode scalar values) one at a time gives the same order.

The view model, `deleteWordsObj` and `dialogStateObj` are not part of this model. Their calls are modelled as the DAO calls they evidently stand for:
- `save(w)` is an insert of `w`;
- `delete(ws)` is the DAO delete;
- `updateWordState(w, b)` is an update of `w` with its flag set to `b`.

On the pending list, `+=` appends and `-=` removes the word.

Membership in the pending-delete and matched lists compares whole data-class values (id, text and flag), not text alone, and the model does the same. Only the duplicate check of the add dialog compares text alone (`p.word == newWord`).

## Model

| member | source | states |
|---|---|---|
| WordsDatabase.WordEquality | app/src/main/kotlin/dev/patrickgold/florisboard/app/settings/blacklist/room/WordsDatabase.kt:39-44 | two words are equal iff id, text and flag are all equal |
| WordsDatabase.NewWord | app/src/main/kotlin/dev/patrickgold/florisboard/app/settings/blacklist/room/WordsDatabase.kt:40-43 | a word built from a text keeps that text, has the default id 0 and is not selected |
| WordsDatabase.Insert | app/src/main/kotlin/dev/patrickgold/florisboard/app/settings/blacklist/room/WordsDatabase.kt:48-49 | an explicit id replaces (or creates) the row under that id and raises the AUTOINCREMENT mark to that id if it is higher; id 0 lands under the key one past the mark, which was not in use, and the mark moves to it, so a generated key is never handed out again; every other row is unchanged; the table stays well formed |
| WordsDatabase.InsertNewWordAddsOneRow | app/src/main/kotlin/dev/patrickgold/florisboard/app/settings/blacklist/room/WordsDatabase.kt:40-49 | a freshly built word (default id 0, not selected) adds exactly one unselected row under a fresh key and changes nothing else; the table grows by one |
| WordsDatabase.InsertAll | app/src/main/kotlin/dev/patrickgold/florisboard/app/settings/blacklist/room/WordsDatabase.kt:48-49 | the words are inserted in order: each argument, with id 0 replaced by the key generated for it, is a row afterwards unless a later argument names the same key; no row disappears; rows no argument names are unchanged; every key afterwards was a key before or is the key of some argument, so no other row appears; the final AUTOINCREMENT mark is the one the single inserts reach |
| WordsDatabase.GeneratedKeysFresh | app/src/main/kotlin/dev/patrickgold/florisboard/app/settings/blacklist/room/WordsDatabase.kt:48-49 | within one call, every id-0 word gets a key above the starting mark, and later id-0 words get strictly larger keys, so no two share one |
| WordsDatabase.MarkAfterGrows | app/src/main/kotlin/dev/patrickgold/florisboard/app/settings/blacklist/room/WordsDatabase.kt:48-49 | the AUTOINCREMENT mark never decreases along the arguments of one call |
| WordsDatabase.InsertAllOfRowsKeepsStore | app/src/main/kotlin/dev/patrickgold/florisboard/app/settings/blacklist/room/WordsDatabase.kt:48-49 | REPLACE of rows with their own content leaves the table and the AUTOINCREMENT mark as they were |
| WordsDatabase.Update | app/src/main/kotlin/dev/patrickgold/florisboard/app/settings/blacklist/room/WordsDatabase.kt:66-67 | a word whose id is a key becomes that row; keys and the AUTOINCREMENT mark are unchanged; every other row is unchanged |
| WordsDatabase.UpdateWithSameRow | app/src/main/kotlin/dev/patrickgold/florisboard/app/settings/blacklist/room/WordsDatabase.kt:66-67 | updating a row to its own content is the identity on the store |
| WordsDatabase.UpdateAll | app/src/main/kotlin/dev/patrickgold/florisboard/app/settings/blacklist/room/WordsDatabase.kt:51-52 | keys and the AUTOINCREMENT mark are unchanged; rows no argument names are unchanged |
| WordsDatabase.UpdateAllOfRowsKeepsStore | app/src/main/kotlin/dev/patrickgold/florisboard/app/settings/blacklist/room/WordsDatabase.kt:51-52 | updating rows to their own content is the identity on the store |
| WordsDatabase.Delete | app/src/main/kotlin/dev/patrickgold/florisboard/app/settings/blacklist/room/WordsDatabase.kt:60-61 | a key survives iff it was a key and no argument has that id; surviving rows are unchanged; the AUTOINCREMENT mark stays |
| WordsDatabase.InsertThenDeleteRestores | app/src/main/kotlin/dev/patrickgold/florisboard/app/settings/blacklist/room/WordsDatabase.kt:48-61 | deleting the row a fresh insert just created gives back the original table |
| WordsDatabase.DeleteAll | app/src/main/kotlin/dev/patrickgold/florisboard/app/settings/blacklist/room/WordsDatabase.kt:63-64 | the table is empty and the AUTOINCREMENT mark is kept |
| WordsDatabase.DeleteAllEmptiesQueries | app/src/main/kotlin/dev/patrickgold/florisboard/app/settings/blacklist/room/WordsDatabase.kt:54-64 | after `deleteAll` both queries return the empty list |
| WordsDatabase.GetAll | app/src/main/kotlin/dev/patrickgold/florisboard/app/settings/blacklist/room/WordsDatabase.kt:54-55 | the result holds exactly the stored rows, one entry per row, in ascending text order |
| WordsDatabase.SortByText | app/src/main/kotlin/dev/patrickgold/florisboard/app/settings/blacklist/room/WordsDatabase.kt:54 | the result is sorted by text and is a permutation of the input |
| WordsDatabase.SortedByTextPairwise | app/src/main/kotlin/dev/patrickgold/florisboard/app/settings/blacklist/room/WordsDatabase.kt:54 | a list ordered between neighbours is ordered between any two positions |
| WordsDatabase.GetAllDistinct | app/src/main/kotlin/dev/patrickgold/florisboard/app/settings/blacklist/room/WordsDatabase.kt:54-55 | the list holds no word twice |
| WordsDatabase.DistinctAt | app/src/main/kotlin/dev/patrickgold/florisboard/app/settings/blacklist/room/WordsDatabase.kt:54-55 | in a list without duplicates, two different positions hold different words |
| WordsDatabase.GetSelected | app/src/main/kotlin/dev/patrickgold/florisboard/app/settings/blacklist/room/WordsDatabase.kt:57-58 | the result holds exactly the stored rows whose flag is set |
| WordsDatabase.SelectedAreListed | app/src/main/kotlin/dev/patrickgold/florisboard/app/settings/blacklist/room/WordsDatabase.kt:54-58 | a word is selected iff it is listed and its flag is set |
| WordsDatabase.Rows | app/src/main/kotlin/dev/patrickgold/florisboard/app/settings/blacklist/room/WordsDatabase.kt:57-58 | the table read in key order: every row exactly once, ids strictly ascending |
| TextOrder.LexLe | app/src/main/kotlin/dev/patrickgold/florisboard/app/settings/blacklist/room/WordsDatabase.kt:54 | the order of `ORDER BY word`: `a` sorts no later than `b` iff `a` is a prefix of `b` or, at the first position where they differ, `a` has the smaller character |
| TextOrder.LexLeReflexive | app/src/main/kotlin/dev/patrickgold/florisboard/app/settings/blacklist/room/WordsDatabase.kt:54 | every text sorts no later than itself |
| TextOrder.LexLeTotal | app/src/main/kotlin/dev/patrickgold/florisboard/app/settings/blacklist/room/WordsDatabase.kt:54 | any two texts are comparable under the order of `ORDER BY word` |
| TextOrder.LexLeTransitive | app/src/main/kotlin/dev/patrickgold/florisboard/app/settings/blacklist/room/WordsDatabase.kt:54 | the text order is transitive |
| TextOrder.LexLeAntisymmetric | app/src/main/kotlin/dev/patrickgold/florisboard/app/settings/blacklist/room/WordsDatabase.kt:54 | texts ordered both ways are equal |
| BlackListScreen.IsBlank | app/src/main/kotlin/dev/patrickgold/florisboard/app/settings/blacklist/BlackListScreen.kt:171 | a text is blank iff every one of its characters is whitespace (so the empty text is blank) |
| BlackListScreen.ListedTextIsStored | app/src/main/kotlin/dev/patrickgold/florisboard/app/settings/blacklist/BlackListScreen.kt:154 | some listed word has text `t` iff some row of the store has text `t` |
| BlackListScreen.ShowsWordExists | app/src/main/kotlin/dev/patrickgold/florisboard/app/settings/blacklist/BlackListScreen.kt:145-156 | the warning shows iff the dialog is shown and some stored word has exactly the draft's text |
| BlackListScreen.OpenDialog | app/src/main/kotlin/dev/patrickgold/florisboard/app/settings/blacklist/BlackListScreen.kt:251 | the add button shows the dialog; a dialog that was not shown starts with an empty draft; store, pending list and back flag are unchanged |
| BlackListScreen.CloseDialog | app/src/main/kotlin/dev/patrickgold/florisboard/app/settings/blacklist/BlackListScreen.kt:150-181 | dismissing the dialog and its cancel button hide the dialog and change nothing else |
| BlackListScreen.EditDraft | app/src/main/kotlin/dev/patrickgold/florisboard/app/settings/blacklist/BlackListScreen.kt:159 | typing sets the draft to the new text and changes nothing else |
| BlackListScreen.ConfirmAddWord | app/src/main/kotlin/dev/patrickgold/florisboard/app/settings/blacklist/BlackListScreen.kt:170-174 | a non-blank draft that no stored word carries is added as one new unselected row under the key one past the AUTOINCREMENT mark, the mark moves to that key and the dialog closes, nothing else changing; a blank or already-present draft leaves the whole screen unchanged |
| BlackListScreen.NewTextStoredOnce | app/src/main/kotlin/dev/patrickgold/florisboard/app/settings/blacklist/BlackListScreen.kt:170-174 | after confirming a new text, exactly one row carries it: the new one |
| BlackListScreen.AddingStoredTextIsRefused | app/src/main/kotlin/dev/patrickgold/florisboard/app/settings/blacklist/BlackListScreen.kt:154-174 | trying to add a stored text leaves the store alone, keeps the dialog open and shows the warning |
| BlackListScreen.AddSameWordTwice | app/src/main/kotlin/dev/patrickgold/florisboard/app/settings/blacklist/BlackListScreen.kt:154-174 | adding the same non-blank text twice through the dialog, whether or not the dialog was already shown, stores it exactly once; the second attempt leaves the store unchanged, keeps the dialog open and shows the warning |
| BlackListScreen.LongClick | app/src/main/kotlin/dev/patrickgold/florisboard/app/settings/blacklist/BlackListScreen.kt:288-294 | outside delete mode, a long click makes the word the only pending one, enables back and changes nothing else; in delete mode it does nothing |
| BlackListScreen.Without | app/src/main/kotlin/dev/patrickgold/florisboard/app/settings/blacklist/BlackListScreen.kt:276 | removing `w` from the pending list keeps exactly the other entries |
| BlackListScreen.Click | app/src/main/kotlin/dev/patrickgold/florisboard/app/settings/blacklist/BlackListScreen.kt:271-286 | in delete mode, the word's pending membership flips, every other word's membership and the whole store are untouched; otherwise the row's matched flag is negated, every other row is unchanged and the pending list is untouched |
| BlackListScreen.ClickOutsideDeleteMode | app/src/main/kotlin/dev/patrickgold/florisboard/app/settings/blacklist/BlackListScreen.kt:279-283 | outside delete mode, a click is exactly the negation of that one row's flag |
| BlackListScreen.ClickTwiceRestores | app/src/main/kotlin/dev/patrickgold/florisboard/app/settings/blacklist/BlackListScreen.kt:279-283 | clicking a card twice, the second time on the refreshed row, restores the whole screen |
| BlackListScreen.ClickTimes | app/src/main/kotlin/dev/patrickgold/florisboard/app/settings/blacklist/BlackListScreen.kt:279-283 | after `n` clicks on one card, its flag is flipped iff `n` is odd |
| BlackListScreen.TogglePendingTwice | app/src/main/kotlin/dev/patrickgold/florisboard/app/settings/blacklist/BlackListScreen.kt:272-276 | in delete mode, two clicks on the same word give back the same pending set and store, as long as another word stays pending |
| BlackListScreen.ToggleOffLastPending | app/src/main/kotlin/dev/patrickgold/florisboard/app/settings/blacklist/BlackListScreen.kt:271-283 | un-pending the last pending word leaves delete mode, so the next click toggles the matched flag instead |
| BlackListScreen.CancelSelection | app/src/main/kotlin/dev/patrickgold/florisboard/app/settings/blacklist/BlackListScreen.kt:199-201 | cancel empties the pending list and changes nothing else |
| BlackListScreen.CancelLeavesBackEnabled | app/src/main/kotlin/dev/patrickgold/florisboard/app/settings/blacklist/BlackListScreen.kt:199-201 | after a long click then cancel, delete mode is left but the back callback is still enabled |
| BlackListScreen.SelectAll | app/src/main/kotlin/dev/patrickgold/florisboard/app/settings/blacklist/BlackListScreen.kt:208-210 | the pending list becomes exactly the stored rows, one entry each, nothing else changing |
| BlackListScreen.DeleteSelected | app/src/main/kotlin/dev/patrickgold/florisboard/app/settings/blacklist/BlackListScreen.kt:216-219 | a key survives iff no pending word has its id; survivors are unchanged; the pending list is emptied; dialog, draft and back flag are kept; the AUTOINCREMENT mark is kept |
| BlackListScreen.DeleteSelectedRemovesExactlyPending | app/src/main/kotlin/dev/patrickgold/florisboard/app/settings/blacklist/BlackListScreen.kt:216-219 | when every pending word is a row, a row survives delete iff it is not pending |
| BlackListScreen.SelectAllThenDeleteEmptiesStore | app/src/main/kotlin/dev/patrickgold/florisboard/app/settings/blacklist/BlackListScreen.kt:208-219 | in delete mode, select-all then delete leaves no row, an empty list and no pending word |
| BlackListScreen.DeleteAllPendingEmptiesStore | app/src/main/kotlin/dev/patrickgold/florisboard/app/settings/blacklist/BlackListScreen.kt:216-219 | if every row is pending, delete leaves no row |
| BlackListScreen.Back | app/src/main/kotlin/dev/patrickgold/florisboard/app/settings/blacklist/BlackListScreen.kt:135-140 | back empties the pending list, disables itself and changes nothing else |
| BlackListScreen.LongClickThenBack | app/src/main/kotlin/dev/patrickgold/florisboard/app/settings/blacklist/BlackListScreen.kt:135-140 | a long click outside delete mode followed by back returns to the starting screen |
| BlackListScreen.HighlightPriority | app/src/main/kotlin/dev/patrickgold/florisboard/app/settings/blacklist/BlackListScreen.kt:322-331 | a card is red iff its word is pending; it is green iff not pending and a selected row; it is plain otherwise |
| BlackListScreen.Step | app/src/main/kotlin/dev/patrickgold/florisboard/app/settings/blacklist/BlackListScreen.kt:145-294 | dialog events do nothing while the dialog is hidden; the top-bar actions do nothing outside delete mode; back does nothing while disabled; the add button always leaves the dialog shown; the table stays well formed |
| BlackListScreen.StepKeepsInv | app/src/main/kotlin/dev/patrickgold/florisboard/app/settings/blacklist/BlackListScreen.kt:198-294 | no event makes a pending word differ from the row it names, or puts a word in the pending list twice |
| BlackListScreen.RunKeepsInv | app/src/main/kotlin/dev/patrickgold/florisboard/app/settings/blacklist/BlackListScreen.kt:198-294 | the same holds for any sequence of events |
| BlackListScreen.WithoutKeepsDistinct | app/src/main/kotlin/dev/patrickgold/florisboard/app/settings/blacklist/BlackListScreen.kt:276 | removing a word from a list without duplicates leaves a list without duplicates |
| BlackListScreen.AppendKeepsDistinct | app/src/main/kotlin/dev/patrickgold/florisboard/app/settings/blacklist/BlackListScreen.kt:276 | appending a word not yet in a list without duplicates leaves a list without duplicates |
| BlackListScreen.StepNeverLowersMark | app/src/main/kotlin/dev/patrickgold/florisboard/app/settings/blacklist/BlackListScreen.kt:170-219 | no event lowers the AUTOINCREMENT mark and only confirm can raise it, so a key the dialog hands out was never handed out before, even after rows are deleted |
| BlackListScreen.RunNeverLowersMark | app/src/main/kotlin/dev/patrickgold/florisboard/app/settings/blacklist/BlackListScreen.kt:170-219 | the mark only grows over any sequence of events |
| BlackListScreen.StepKeepsTextsUnique | app/src/main/kotlin/dev/patrickgold/florisboard/app/settings/blacklist/BlackListScreen.kt:171 | no event puts two rows with the same text in the store |
| BlackListScreen.ListedStrictlyAscending | app/src/main/kotlin/dev/patrickgold/florisboard/app/settings/blacklist/BlackListScreen.kt:265 | while no text is stored twice, the list the screen shows is in strictly ascending text order |

## Left out

- Compose rendering and the search field (`BlackListScreen.kt` lines 132 and 238-245). The search goes through `updateFoudation`, which is not part of this model.
- Vibration (`BlackListScreen.kt` lines 278, 292 and 307-310). It is a side effect with no state.
- The registration of the back callback is commented out (`BlackListScreen.kt` line 142), so on a device the callback never runs.
  - `Back` models what the callback does when it runs.
  - `Step` runs it whenever its flag is enabled.
- The callback object is rebuilt, disabled, on every recomposition (`BlackListScreen.kt` line 135).
  - The model keeps one flag that only long click and back change. Recomposition is not an event here.
  - As written, cancel and delete do not clear the flag. The model keeps it that way (`CancelLeavesBackEnabled`).
- The Room database builder, the Hilt module, the notification builder and the vibrator provider (`WordsDatabase.kt` lines 70-151). They are framework plumbing.
- `WordContentResolver.kt`, `Theme.kt` and `Color.kt`. They are cross-process I/O and colour constants.
- The view model, `deleteWordsObj` and `dialogStateObj` are not part of this model. Their calls are modelled as the DAO and list operations named above. The lifecycle-driven reconciliation they perform is left out.
- Flow and coroutine timing. Each DAO call is atomic, and the next handler sees its result.
- Store failures. The DAO calls are `suspend` calls that can throw; the model treats every call as succeeding. In particular, delete-selected empties the pending list whatever the delete does (`BlackListScreen.kt` lines 217-219), and the model does not say what the screen shows after a failed call.
- `rememberSaveable` surviving configuration changes. The draft lives only while the dialog is shown.
- Dialog modality: card and top-bar events are not blocked while the dialog is shown.
- Word ids are unbounded integers, not 32-bit `Int`. Running out of ids is not modelled.
- WordsDatabase.GetAll: ties between equal texts come out in key order. SQLite does not fix that order, and the contract does not constrain it.
- WordsDatabase.GetSelected: the query has no ORDER BY, and the contract fixes membership only. The model returns rows in key order.
- BlackListScreen.Without: removes every copy of the word. Kotlin's list `-` removes only the first copy. The two agree on the screen, because `Inv` (kept by every event, `StepKeepsInv`) says the pending list holds no word twice.
- WordsDatabase.UpdateAll: the contract does not give the final content of updated rows, only that keys and other rows are unchanged.

=== FILE: blacklist_screen.dfy ===
/**
  The word-list screen as a state machine over the `words` store.

  The screen's state is the store it displays (the list is `getAll` of it and
  the "matched" words are `getSelected` of it), the pending-delete list, the
  add-word dialog flag with its draft text, and the enabled flag of the back
  callback. Every click handler of the screen is one transition function;
  `Step` dispatches a user event to the handler the screen would run.
 */
module BlackListScreen {
  import opened WordsDatabase
  import opened TextOrder

  datatype Screen = Screen(
    store: Store,
    pendingDelete: seq<Word>,
    dialogOpen: bool,
    draft: string,
    backEnabled: bool)

  /** The screen as first shown over a given store. */
  function Initial(st: Store): Screen
  {
    Screen(st, [], false, "", false)
  }

  /** The displayed list, `words.value`. */
  function Words(s: Screen): seq<Word>
    requires Valid(s.store)
  {
    GetAll(s.store)
  }

  /** The matched words, `selectedWords.value`. */
  function SelectedWords(s: Screen): seq<Word>
    requires Valid(s.store)
  {
    GetSelected(s.store)
  }

  /**
    Kotlin's `Char.isWhitespace` on the JVM: Java's `isWhitespace` or
    `isSpaceChar`, i.e. the control characters TAB to CR and FS to US, and
    every space, line and paragraph separator of Unicode.
   */
  predicate IsWhitespace(c: char)
  {
    || '\U{0009}' <= c <= '\U{000D}'
    || '\U{001C}' <= c <= '\U{0020}'
    || c == '\U{00A0}' || c == '\U{1680}'
    || '\U{2000}' <= c <= '\U{200A}'
    || c == '\U{2028}' || c == '\U{2029}' || c == '\U{202F}' || c == '\U{205F}'
    || c == '\U{3000}'
  }

  /** `isBlank`, checked one character at a time: empty, or whitespace only. */
  function IsBlank(t: string): (b: bool)
    ensures b <==> forall i :: 0 <= i < |t| ==> IsWhitespace(t[i])
    decreases |t|
  {
    if t == [] then true
    else
      assert forall i :: 0 < i < |t| ==> t[i] == t[1..][i - 1];
      IsWhitespace(t[0]) && IsBlank(t[1..])
  }

  /** `ws.any { p -> p.word == t }`. */
  predicate AnyHasText(ws: seq<Word>, t: string)
  {
    exists i :: 0 <= i < |ws| && ws[i].text == t
  }

  /** Searching the displayed list for a text is searching the store. */
  lemma ListedTextIsStored(st: Store, t: string)
    requires Valid(st)
    ensures AnyHasText(GetAll(st), t) <==> HasText(st, t)
  {
    var ws := GetAll(st);
    if HasText(st, t) {
      var k :| k in st.rows && st.rows[k].text == t;
      assert IsRow(st, st.rows[k]);
      var i :| 0 <= i < |ws| && ws[i] == st.rows[k];
    }
    if AnyHasText(ws, t) {
      var i :| 0 <= i < |ws| && ws[i].text == t;
      assert ws[i] in ws;
      assert st.rows[ws[i].id].text == t;
    }
  }

  /** Whether the dialog shows its "word already exists" warning. */
  function ShowsWordExists(s: Screen): (b: bool)
    requires Valid(s.store)
    ensures b <==> s.dialogOpen && HasText(s.store, s.draft)
  {
    ListedTextIsStored(s.store, s.draft);
    s.dialogOpen && AnyHasText(Words(s), s.draft)
  }

  /**
    The add button. The draft is remembered only while the dialog is shown,
    so a dialog that opens starts with an empty draft.
   */
  function OpenDialog(s: Screen): (r: Screen)
    ensures r.dialogOpen
    ensures r.store == s.store && r.pendingDelete == s.pendingDelete && r.backEnabled == s.backEnabled
    ensures !s.dialogOpen ==> r.draft == ""
    ensures s.dialogOpen ==> r == s
  {
    if s.dialogOpen then s else s.(dialogOpen := true, draft := "")
  }

  /** Typing into the dialog's text field: the draft becomes `t`, nothing else changes. */
  function EditDraft(s: Screen, t: string): (r: Screen)
    ensures r.draft == t && r.(draft := s.draft) == s
  {
    s.(draft := t)
  }

  /** Dismissing the dialog, or pressing its cancel button. */
  function CloseDialog(s: Screen): (r: Screen)
    ensures !r.dialogOpen
    ensures r.(dialogOpen := s.dialogOpen) == s
  {
    s.(dialogOpen := false)
  }

  /**
    The dialog's confirm button: a non-blank draft that no listed word
    already carries is saved as a new word and the dialog closes; otherwise
    nothing happens.
   */
  function ConfirmAddWord(s: Screen): (r: Screen)
    requires Valid(s.store)
    ensures Valid(r.store)
    ensures !IsBlank(s.draft) && !HasText(s.store, s.draft) ==>
      && !r.dialogOpen
      && r.(store := s.store, dialogOpen := s.dialogOpen) == s
      && r.store.lastId == s.store.lastId + 1
      && r.store.lastId !in s.store.rows
      && r.store.rows == s.store.rows[r.store.lastId := Word(r.store.lastId, s.draft, false)]
    ensures IsBlank(s.draft) || HasText(s.store, s.draft) ==> r == s
  {
    ListedTextIsStored(s.store, s.draft);
    if !IsBlank(s.draft) && !AnyHasText(Words(s), s.draft) then
      InsertNewWordAddsOneRow(s.store, s.draft);
      s.(store := Insert(s.store, NewWord(s.draft)), dialogOpen := false)
    else
      s
  }

  /** The pending-delete list with every copy of `w` taken out (`-=`). */
  function Without(ws: seq<Word>, w: Word): (r: seq<Word>)
    ensures forall v :: v in r <==> v in ws && v != w
    ensures |r| <= |ws|
    decreases |ws|
  {
    if ws == [] then []
    else
      assert forall v :: v in ws <==> v == ws[0] || v in ws[1..];
      (if ws[0] == w then [] else [ws[0]]) + Without(ws[1..], w)
  }

  /**
    Long click on a card: outside delete mode it starts delete mode with
    this word and enables the back callback; inside delete mode it does
    nothing.
   */
  function LongClick(s: Screen, w: Word): (r: Screen)
    ensures |s.pendingDelete| == 0 ==>
      && r.pendingDelete == [w] && r.backEnabled
      && r.(pendingDelete := s.pendingDelete, backEnabled := s.backEnabled) == s
    ensures |s.pendingDelete| > 0 ==> r == s
  {
    if |s.pendingDelete| == 0 then s.(pendingDelete := s.pendingDelete + [w], backEnabled := true) else s
  }

  /**
    Click on a card. In delete mode the word's membership in the
    pending-delete list flips; otherwise its matched flag is written back
    to the store, negated.
   */
  function Click(s: Screen, w: Word): (r: Screen)
    requires Valid(s.store) && IsRow(s.store, w)
    ensures Valid(r.store)
    ensures r.dialogOpen == s.dialogOpen && r.draft == s.draft && r.backEnabled == s.backEnabled
    ensures r.store.lastId == s.store.lastId
    ensures |s.pendingDelete| > 0 ==>
      && r.store == s.store
      && (w in r.pendingDelete <==> w !in s.pendingDelete)
      && forall v :: v != w ==> (v in r.pendingDelete <==> v in s.pendingDelete)
    ensures |s.pendingDelete| == 0 ==>
      && r.pendingDelete == s.pendingDelete
      && IsRow(r.store, w.(isSelected := !w.isSelected))
      && r.store.rows.Keys == s.store.rows.Keys
      && forall k :: k in s.store.rows && k != w.id ==> r.store.rows[k] == s.store.rows[k]
  {
    if |s.pendingDelete| > 0 then
      s.(pendingDelete := if w !in s.pendingDelete then s.pendingDelete + [w] else Without(s.pendingDelete, w))
    else
      s.(store := Update(s.store, w.(isSelected := w !in SelectedWords(s))))
  }

  /** The top bar's cancel button: leaves delete mode. */
  function CancelSelection(s: Screen): (r: Screen)
    ensures |r.pendingDelete| == 0
    ensures r.(pendingDelete := s.pendingDelete) == s
  {
    s.(pendingDelete := [])
  }

  /** The top bar's select-all button: every listed word becomes pending. */
  function SelectAll(s: Screen): (r: Screen)
    requires Valid(s.store)
    ensures forall w :: w in r.pendingDelete <==> IsRow(s.store, w)
    ensures |r.pendingDelete| == |s.store.rows|
    ensures r.(pendingDelete := s.pendingDelete) == s
  {
    s.(pendingDelete := Words(s))
  }

  /**
    The top bar's delete button: the pending words are deleted from the
    store by id, and the pending list is then emptied.
   */
  function DeleteSelected(s: Screen): (r: Screen)
    requires Valid(s.store)
    ensures Valid(r.store) && |r.pendingDelete| == 0 && r.store.lastId == s.store.lastId
    ensures forall k :: k in r.store.rows <==> k in s.store.rows && forall w :: w in s.pendingDelete ==> w.id != k
    ensures forall k :: k in r.store.rows ==> r.store.rows[k] == s.store.rows[k]
    ensures r.(store := s.store, pendingDelete := s.pendingDelete) == s
  {
    s.(store := Delete(s.store, s.pendingDelete), pendingDelete := [])
  }

  /** The back callback: leaves delete mode and disables itself. */
  function Back(s: Screen): (r: Screen)
    ensures |r.pendingDelete| == 0 && !r.backEnabled
    ensures r.(pendingDelete := s.pendingDelete, backEnabled := s.backEnabled) == s
  {
    s.(pendingDelete := [], backEnabled := false)
  }

  /** A card's container colour: red, green or the default. */
  datatype Highlight = PendingRed | MatchedGreen | Plain

  /** A card pending deletion is red, whether matched or not. */
  function CardHighlight(selected: bool, selectedForDelete: bool): Highlight
  {
    if selectedForDelete then PendingRed
    else if selected then MatchedGreen
    else Plain
  }

  /** The highlight of the card showing `w`. */
  function HighlightOf(s: Screen, w: Word): Highlight
    requires Valid(s.store)
  {
    CardHighlight(w in SelectedWords(s), w in s.pendingDelete)
  }

  lemma HighlightPriority(s: Screen, w: Word)
    requires Valid(s.store)
    ensures HighlightOf(s, w) == PendingRed <==> w in s.pendingDelete
    ensures HighlightOf(s, w) == MatchedGreen <==> w !in s.pendingDelete && IsRow(s.store, w) && w.isSelected
    ensures HighlightOf(s, w) == Plain <==> w !in s.pendingDelete && !(IsRow(s.store, w) && w.isSelected)
  {
  }

  /** What the user can do on the screen. Cards are named by list position. */
  datatype Event =
    | AddPressed
    | DraftEdited(text: string)
    | ConfirmPressed
    | DismissRequested
    | CancelPressed
    | CardClicked(index: int)
    | CardLongClicked(index: int)
    | CancelSelectionPressed
    | SelectAllPressed
    | DeleteSelectedPressed
    | BackPressed

  /**
    One event. Dialog events reach the screen only while the dialog is shown,
    card events only name listed cards, the top-bar actions are shown only in
    delete mode, and the back callback runs only while enabled; an event that
    cannot happen leaves the screen as it is.
   */
  function Step(s: Screen, e: Event): (r: Screen)
    requires Valid(s.store)
    ensures Valid(r.store)
    ensures !s.dialogOpen && (e.DraftEdited? || e.ConfirmPressed? || e.DismissRequested? || e.CancelPressed?) ==> r == s
    ensures |s.pendingDelete| == 0 && (e.CancelSelectionPressed? || e.SelectAllPressed? || e.DeleteSelectedPressed?) ==> r == s
    ensures !s.backEnabled && e.BackPressed? ==> r == s
    ensures e.AddPressed? ==> r.dialogOpen
  {
    match e
    case AddPressed => OpenDialog(s)
    case DraftEdited(t) => if s.dialogOpen then EditDraft(s, t) else s
    case ConfirmPressed => if s.dialogOpen then ConfirmAddWord(s) else s
    case DismissRequested => if s.dialogOpen then CloseDialog(s) else s
    case CancelPressed => if s.dialogOpen then CloseDialog(s) else s
    case CardClicked(i) => ClickAt(s, i)
    case CardLongClicked(i) => LongClickAt(s, i)
    case CancelSelectionPressed => if |s.pendingDelete| > 0 then CancelSelection(s) else s
    case SelectAllPressed => if |s.pendingDelete| > 0 then SelectAll(s) else s
    case DeleteSelectedPressed => if |s.pendingDelete| > 0 then DeleteSelected(s) else s
    case BackPressed => if s.backEnabled then Back(s) else s
  }

  /** A click on the card at list position `i`, if there is one. */
  function ClickAt(s: Screen, i: int): Screen
    requires Valid(s.store)
  {
    var words := Words(s);
    if 0 <= i < |words| then Click(s, words[i]) else s
  }

  /** A long click on the card at list position `i`, if there is one. */
  function LongClickAt(s: Screen, i: int): Screen
    requires Valid(s.store)
  {
    var words := Words(s);
    if 0 <= i < |words| then LongClick(s, words[i]) else s
  }

  /** A sequence of events, in order. */
  function Run(s: Screen, es: seq<Event>): (r: Screen)
    requires Valid(s.store)
    ensures Valid(r.store)
    decreases |es|
  {
    if es == [] then s else Run(Step(s, es[0]), es[1..])
  }

  lemma RunTwo(s: Screen, e1: Event, e2: Event)
    requires Valid(s.store)
    ensures Run(s, [e1, e2]) == Step(Step(s, e1), e2)
  {
    var s1 := Step(s, e1);
    assert [e1, e2][1..] == [e2];
    assert Run(s, [e1, e2]) == Run(s1, [e2]);
    assert [e2][1..] == [];
    assert Run(s1, [e2]) == Run(Step(s1, e2), []);
  }

  lemma RunThree(s: Screen, e1: Event, e2: Event, e3: Event)
    requires Valid(s.store)
    ensures Run(s, [e1, e2, e3]) == Step(Step(Step(s, e1), e2), e3)
  {
    assert [e1, e2, e3][1..] == [e2, e3];
    RunTwo(Step(s, e1), e2, e3);
  }

  /** Every pending word is, field for field, a row of the store, and none is pending twice. */
  predicate Inv(s: Screen)
  {
    && Valid(s.store)
    && (forall w :: w in s.pendingDelete ==> IsRow(s.store, w))
    && Distinct(s.pendingDelete)
  }

  lemma InitialInv(st: Store)
    requires Valid(st)
    ensures Inv(Initial(st))
  {
  }

  lemma StepKeepsInv(s: Screen, e: Event)
    requires Inv(s)
    ensures Inv(Step(s, e))
  {
    match e
    case CardClicked(i) =>
      CardClickKeepsInv(s, i);
    case CardLongClicked(i) =>
      CardLongClickKeepsInv(s, i);
    case ConfirmPressed =>
      if s.dialogOpen {
        StepConfirm(s);
        ConfirmKeepsInv(s);
      }
    case SelectAllPressed =>
      if |s.pendingDelete| > 0 {
        SelectAllKeepsInv(s);
      }
    case _ =>
  }

  lemma CardClickKeepsInv(s: Screen, i: int)
    requires Inv(s)
    ensures Inv(Step(s, CardClicked(i)))
  {
    if 0 <= i < |Words(s)| {
      ListedIsRow(s, i);
      StepClick(s, i, Words(s)[i]);
      ClickKeepsInv(s, Words(s)[i]);
    } else {
      StepClickOffList(s, i);
    }
  }

  lemma CardLongClickKeepsInv(s: Screen, i: int)
    requires Inv(s)
    ensures Inv(Step(s, CardLongClicked(i)))
  {
    if 0 <= i < |Words(s)| {
      StepLongClick(s, i);
      ListedIsRow(s, i);
    } else {
      StepLongClickOffList(s, i);
    }
  }

  /** While the dialog is shown, confirm runs the confirm handler. */
  lemma StepConfirm(s: Screen)
    requires Valid(s.store) && s.dialogOpen
    ensures Step(s, ConfirmPressed) == ConfirmAddWord(s)
  {
  }

  lemma SelectAllKeepsInv(s: Screen)
    requires Inv(s) && |s.pendingDelete| > 0
    ensures Inv(Step(s, SelectAllPressed))
  {
    StepSelectAll(s);
    GetAllDistinct(s.store);
  }

  lemma ClickKeepsInv(s: Screen, w: Word)
    requires Inv(s) && IsRow(s.store, w)
    ensures Inv(Click(s, w))
  {
    if |s.pendingDelete| > 0 {
      if w !in s.pendingDelete {
        AppendKeepsDistinct(s.pendingDelete, w);
      } else {
        WithoutKeepsDistinct(s.pendingDelete, w);
      }
    }
  }

  lemma AppendKeepsDistinct(ws: seq<Word>, w: Word)
    requires Distinct(ws) && w !in ws
    ensures Distinct(ws + [w])
  {
    assert multiset(ws + [w]) == multiset(ws) + multiset{w};
    forall v | v in ws + [w]
      ensures multiset(ws + [w])[v] <= 1
    {
      if v != w {
        assert v in ws;
      }
    }
  }

  /** Taking a word out of a list without repeats leaves a list without repeats. */
  lemma {:induction false} WithoutKeepsDistinct(ws: seq<Word>, w: Word)
    requires Distinct(ws)
    ensures Distinct(Without(ws, w))
    decreases |ws|
  {
    if ws != [] {
      var t := ws[1..];
      assert ws == [ws[0]] + t;
      assert multiset(ws) == multiset{ws[0]} + multiset(t);
      forall v | v in t
        ensures multiset(t)[v] <= 1
      {
        assert v in ws;
      }
      assert multiset(t)[ws[0]] == 0 by {
        assert ws[0] in ws;
        assert multiset(ws)[ws[0]] == 1 + multiset(t)[ws[0]];
      }
      WithoutKeepsDistinct(t, w);
      var rt := Without(t, w);
      var head := if ws[0] == w then [] else [ws[0]];
      assert Without(ws, w) == head + rt;
      assert multiset(head + rt) == multiset(head) + multiset(rt);
      assert ws[0] !in rt;
      forall v | v in head + rt
        ensures multiset(head + rt)[v] <= 1
      {
        if v in rt {
          assert v != ws[0];
        }
      }
    }
  }

  lemma ConfirmKeepsInv(s: Screen)
    requires Inv(s)
    ensures Inv(ConfirmAddWord(s))
  {
    var r := ConfirmAddWord(s);
    forall w | w in r.pendingDelete
      ensures IsRow(r.store, w)
    {
      assert IsRow(s.store, w);
    }
  }

  lemma {:induction false} RunKeepsInv(s: Screen, es: seq<Event>)
    requires Inv(s)
    ensures Inv(Run(s, es))
    decreases |es|
  {
    if es != [] {
      StepKeepsInv(s, es[0]);
      RunKeepsInv(Step(s, es[0]), es[1..]);
    }
  }

  /**
    With every pending word a row, the delete button removes exactly the
    pending rows and keeps every other row as it was.
   */
  lemma DeleteSelectedRemovesExactlyPending(s: Screen)
    requires Inv(s)
    ensures var r := DeleteSelected(s);
      forall w :: IsRow(s.store, w) ==> (IsRow(r.store, w) <==> w !in s.pendingDelete)
  {
    var r := DeleteSelected(s);
    forall w | IsRow(s.store, w)
      ensures IsRow(r.store, w) <==> w !in s.pendingDelete
    {
      if w !in s.pendingDelete {
        forall p | p in s.pendingDelete
          ensures p.id != w.id
        {
          assert IsRow(s.store, p);
        }
      }
    }
  }

  /** In delete mode, select-all followed by delete empties the store. */
  lemma SelectAllThenDeleteEmptiesStore(s: Screen)
    requires Inv(s) && |s.pendingDelete| > 0
    ensures var r := Run(s, [SelectAllPressed, DeleteSelectedPressed]);
      |r.store.rows| == 0 && Words(r) == [] && |r.pendingDelete| == 0
  {
    RunTwo(s, SelectAllPressed, DeleteSelectedPressed);
    assert IsRow(s.store, s.pendingDelete[0]);
    StepSelectAll(s);
    var s1 := SelectAll(s);
    assert |s1.pendingDelete| > 0;
    StepDeleteSelected(s1);
    DeleteAllPendingEmptiesStore(s1);
  }

  /** In delete mode, the top-bar events run their handlers. */
  lemma StepCancelSelection(s: Screen)
    requires Valid(s.store) && |s.pendingDelete| > 0
    ensures Step(s, CancelSelectionPressed) == CancelSelection(s)
  {
  }

  lemma StepSelectAll(s: Screen)
    requires Valid(s.store) && |s.pendingDelete| > 0
    ensures Step(s, SelectAllPressed) == SelectAll(s)
  {
  }

  lemma StepDeleteSelected(s: Screen)
    requires Valid(s.store) && |s.pendingDelete| > 0
    ensures Step(s, DeleteSelectedPressed) == DeleteSelected(s)
  {
  }

  /** Every listed card shows a row of the store. */
  lemma ListedIsRow(s: Screen, i: int)
    requires Valid(s.store) && 0 <= i < |Words(s)|
    ensures IsRow(s.store, Words(s)[i])
  {
    assert Words(s)[i] in Words(s);
  }

  /** A long click on a listed card runs the long-click handler on its word. */
  lemma StepLongClick(s: Screen, i: int)
    requires Valid(s.store) && 0 <= i < |Words(s)|
    ensures Step(s, CardLongClicked(i)) == LongClick(s, Words(s)[i])
  {
  }

  /** A click on a listed card runs the click handler on its word. */
  lemma StepClick(s: Screen, i: int, w: Word)
    requires Valid(s.store) && 0 <= i < |Words(s)| && w == Words(s)[i] && IsRow(s.store, w)
    ensures Step(s, CardClicked(i)) == Click(s, w)
  {
    StepCardClicked(s, i);
  }

  lemma StepCardClicked(s: Screen, i: int)
    requires Valid(s.store)
    ensures Step(s, CardClicked(i)) == ClickAt(s, i)
  {
  }

  /** A click on a position with no card changes nothing. */
  lemma StepClickOffList(s: Screen, i: int)
    requires Valid(s.store) && !(0 <= i < |Words(s)|)
    ensures Step(s, CardClicked(i)) == s
  {
  }

  /** A long click on a position with no card changes nothing. */
  lemma StepLongClickOffList(s: Screen, i: int)
    requires Valid(s.store) && !(0 <= i < |Words(s)|)
    ensures Step(s, CardLongClicked(i)) == s
  {
  }

  /** Deleting a pending list that holds every row leaves no row. */
  lemma DeleteAllPendingEmptiesStore(s: Screen)
    requires Valid(s.store) && forall w :: IsRow(s.store, w) ==> w in s.pendingDelete
    ensures |DeleteSelected(s).store.rows| == 0
  {
    var r := DeleteSelected(s);
    forall k | k in s.store.rows
      ensures k !in r.store.rows
    {
      assert IsRow(s.store, s.store.rows[k]);
    }
    assert r.store.rows.Keys == {};
  }

  /** No two rows carry the same text. */
  predicate TextsUnique(st: Store)
  {
    forall a, b :: a in st.rows && b in st.rows && st.rows[a].text == st.rows[b].text ==> a == b
  }

  lemma ConfirmKeepsTextsUnique(s: Screen)
    requires Valid(s.store) && TextsUnique(s.store)
    ensures TextsUnique(ConfirmAddWord(s).store)
  {
    var r := ConfirmAddWord(s);
    if r != s {
      var n := r.store.lastId;
      forall a, b | a in r.store.rows && b in r.store.rows && r.store.rows[a].text == r.store.rows[b].text
        ensures a == b
      {
        if a != n && b != n {
          assert s.store.rows[a].text == s.store.rows[b].text;
        }
      }
    }
  }

  lemma ClickKeepsTextsUnique(s: Screen, w: Word)
    requires Valid(s.store) && IsRow(s.store, w) && TextsUnique(s.store)
    ensures TextsUnique(Click(s, w).store)
  {
    var r := Click(s, w);
    forall k | k in r.store.rows
      ensures r.store.rows[k].text == s.store.rows[k].text
    {
    }
  }

  lemma DeleteKeepsTextsUnique(s: Screen)
    requires Valid(s.store) && TextsUnique(s.store)
    ensures TextsUnique(DeleteSelected(s).store)
  {
  }

  /** No event puts two rows with the same text in the store. */
  lemma StepKeepsTextsUnique(s: Screen, e: Event)
    requires Valid(s.store) && TextsUnique(s.store)
    ensures TextsUnique(Step(s, e).store)
  {
    match e
    case ConfirmPressed =>
      ConfirmKeepsTextsUnique(s);
    case CardClicked(i) =>
      if 0 <= i < |Words(s)| {
        ListedIsRow(s, i);
        StepClick(s, i, Words(s)[i]);
        ClickKeepsTextsUnique(s, Words(s)[i]);
      } else {
        StepClickOffList(s, i);
      }
    case DeleteSelectedPressed =>
      DeleteKeepsTextsUnique(s);
    case _ =>
  }

  /** While no text is stored twice, the list is in strictly ascending text order. */
  lemma ListedStrictlyAscending(s: Screen)
    requires Valid(s.store) && TextsUnique(s.store)
    ensures forall i, j :: 0 <= i < j < |Words(s)| ==>
      LexLe(Words(s)[i].text, Words(s)[j].text) && Words(s)[i].text != Words(s)[j].text
  {
    var ws := Words(s);
    SortedByTextPairwise(ws);
    GetAllDistinct(s.store);
    forall i, j | 0 <= i < j < |ws|
      ensures ws[i].text != ws[j].text
    {
      DistinctAt(ws, i, j);
      assert ws[i] in ws && ws[j] in ws;
      assert ws[i].id != ws[j].id;
    }
  }

  /**
    No event lowers the AUTOINCREMENT mark, and only a successful confirm
    raises it. Every key is at most the mark, so a key the add dialog hands
    out has never been handed out before.
   */
  lemma StepNeverLowersMark(s: Screen, e: Event)
    requires Valid(s.store)
    ensures s.store.lastId <= Step(s, e).store.lastId
    ensures !e.ConfirmPressed? ==> Step(s, e).store.lastId == s.store.lastId
  {
    match e
    case CardClicked(i) =>
      if 0 <= i < |Words(s)| {
        ListedIsRow(s, i);
        StepClick(s, i, Words(s)[i]);
      } else {
        StepClickOffList(s, i);
      }
    case CardLongClicked(i) =>
      if 0 <= i < |Words(s)| {
        StepLongClick(s, i);
      } else {
        StepLongClickOffList(s, i);
      }
    case _ =>
  }

  /** Over any sequence of events the mark only grows. */
  lemma {:induction false} RunNeverLowersMark(s: Screen, es: seq<Event>)
    requires Valid(s.store)
    ensures s.store.lastId <= Run(s, es).store.lastId
    decreases |es|
  {
    if es != [] {
      StepNeverLowersMark(s, es[0]);
      RunNeverLowersMark(Step(s, es[0]), es[1..]);
    }
  }

  /** The rows whose text is `t`. */
  function KeysWithText(st: Store, t: string): set<int>
  {
    set k | k in st.rows && st.rows[k].text == t
  }

  /**
    Adding the same non-blank text twice stores it once: the second attempt
    changes nothing, keeps the dialog open and shows the warning.
   */
  lemma AddSameWordTwice(s: Screen, t: string)
    requires Valid(s.store) && TextsUnique(s.store) && !IsBlank(t)
    ensures var once := Run(s, [AddPressed, DraftEdited(t), ConfirmPressed]);
      var twice := Run(once, [AddPressed, DraftEdited(t), ConfirmPressed]);
      && twice.store == once.store
      && |KeysWithText(twice.store, t)| == 1
      && twice.dialogOpen && ShowsWordExists(twice)
  {
    RunAddAttempt(s, t);
    var once := ConfirmAddWord(EditDraft(OpenDialog(s), t));
    FirstAddStoresOnce(s, t);
    RunAddAttempt(once, t);
    AddingStoredTextIsRefused(once, t);
  }

  /** After one attempt, exactly one row carries the text. */
  lemma FirstAddStoresOnce(s: Screen, t: string)
    requires Valid(s.store) && TextsUnique(s.store) && !IsBlank(t)
    ensures var once := ConfirmAddWord(EditDraft(OpenDialog(s), t));
      |KeysWithText(once.store, t)| == 1 && HasText(once.store, t)
  {
    var b := EditDraft(OpenDialog(s), t);
    assert b.draft == t && b.store == s.store;
    if HasText(s.store, t) {
      UniqueTextHasOneKey(s.store, t);
    } else {
      NewTextStoredOnce(b);
    }
  }

  /** Confirming a new non-blank draft leaves exactly one row with its text. */
  lemma NewTextStoredOnce(s: Screen)
    requires Valid(s.store) && !IsBlank(s.draft) && !HasText(s.store, s.draft)
    ensures var r := ConfirmAddWord(s);
      KeysWithText(r.store, s.draft) == {r.store.lastId} && HasText(r.store, s.draft)
  {
    var r := ConfirmAddWord(s);
    var n := r.store.lastId;
    assert r.store.rows[n].text == s.draft;
    forall k | k in r.store.rows && r.store.rows[k].text == s.draft
      ensures k == n
    {
      if k != n {
        assert false;
      }
    }
  }

  lemma UniqueTextHasOneKey(st: Store, t: string)
    requires TextsUnique(st) && HasText(st, t)
    ensures |KeysWithText(st, t)| == 1
  {
    var k :| k in st.rows && st.rows[k].text == t;
    forall j | j in KeysWithText(st, t)
      ensures j == k
    {
      assert st.rows[j].text == st.rows[k].text;
    }
    assert KeysWithText(st, t) == {k};
  }

  /** An attempt at adding a stored text leaves the store alone and the dialog open. */
  lemma AddingStoredTextIsRefused(s: Screen, t: string)
    requires Valid(s.store) && HasText(s.store, t)
    ensures var r := ConfirmAddWord(EditDraft(OpenDialog(s), t));
      r.store == s.store && r.dialogOpen && r.draft == t && ShowsWordExists(r)
  {
  }

  /** One attempt at adding `t`: open the dialog, type `t`, confirm. */
  lemma RunAddAttempt(s: Screen, t: string)
    requires Valid(s.store)
    ensures Run(s, [AddPressed, DraftEdited(t), ConfirmPressed]) == ConfirmAddWord(EditDraft(OpenDialog(s), t))
  {
    RunThree(s, AddPressed, DraftEdited(t), ConfirmPressed);
  }

  /**
    Outside delete mode, clicking a word and then clicking it again (as
    the refreshed list now shows it) gives back the screen it started from.
   */
  lemma ClickTwiceRestores(s: Screen, w: Word)
    requires Valid(s.store) && IsRow(s.store, w) && |s.pendingDelete| == 0
    ensures var s1 := Click(s, w);
      IsRow(s1.store, s1.store.rows[w.id]) && Click(s1, s1.store.rows[w.id]) == s
  {
    ClickOutsideDeleteMode(s, w);
    var s1 := Flip(s, w);
    FlipTwice(s, w);
    ClickOutsideDeleteMode(s1, s1.store.rows[w.id]);
  }

  /** Row `w`'s matched flag negated in the store, nothing else changed. */
  function Flip(s: Screen, w: Word): Screen
  {
    s.(store := Store(s.store.rows[w.id := w.(isSelected := !w.isSelected)], s.store.lastId))
  }

  lemma FlipTwice(s: Screen, w: Word)
    requires IsRow(s.store, w)
    ensures var s1 := Flip(s, w);
      IsRow(s1.store, s1.store.rows[w.id]) && Flip(s1, s1.store.rows[w.id]) == s
  {
    var s1 := Flip(s, w);
    assert s1.store.rows[w.id].(isSelected := !s1.store.rows[w.id].isSelected) == w;
    assert s.store.rows[w.id := w.(isSelected := !w.isSelected)][w.id := w] == s.store.rows;
  }

  /** Outside delete mode a click is exactly the flip of one row's flag. */
  lemma ClickOutsideDeleteMode(s: Screen, w: Word)
    requires Valid(s.store) && IsRow(s.store, w) && |s.pendingDelete| == 0
    ensures Valid(Flip(s, w).store) && Click(s, w) == Flip(s, w)
  {
    var r := Click(s, w);
    assert r.store.rows == s.store.rows[w.id := w.(isSelected := !w.isSelected)];
  }

  /**
    `n` clicks on the card of row `id`, outside delete mode: the row's
    matched flag ends up flipped exactly when `n` is odd.
   */
  function ClickTimes(s: Screen, id: int, n: nat): (r: Screen)
    requires Valid(s.store) && id in s.store.rows && |s.pendingDelete| == 0
    ensures Valid(r.store) && id in r.store.rows && |r.pendingDelete| == 0
    ensures r.store.rows[id].isSelected == (s.store.rows[id].isSelected != IsOdd(n))
    decreases n
  {
    if n == 0 then s
    else
      var w := s.store.rows[id];
      ClickOutsideDeleteMode(s, w);
      OddStep(n);
      ClickTimes(Click(s, w), id, n - 1)
  }

  /** `n` is odd. */
  predicate IsOdd(n: nat)
  {
    n % 2 == 1
  }

  lemma OddStep(n: nat)
    requires n > 0
    ensures IsOdd(n) == !IsOdd(n - 1)
  {
  }

  /**
    In delete mode, clicking a word twice gives back the pending set, as
    long as some other word keeps delete mode on in between.
   */
  lemma TogglePendingTwice(s: Screen, w: Word, other: Word)
    requires Valid(s.store) && IsRow(s.store, w)
    requires other in s.pendingDelete && other != w
    ensures var s1 := Click(s, w);
      var s2 := Click(s1, w);
      && s2.store == s.store
      && forall v :: v in s2.pendingDelete <==> v in s.pendingDelete
  {
    var s1 := Click(s, w);
    assert other in s1.pendingDelete;
  }

  /**
    Un-pending the last pending word leaves delete mode, so the next click
    on it toggles its matched flag instead.
   */
  lemma ToggleOffLastPending(s: Screen, w: Word)
    requires Valid(s.store) && IsRow(s.store, w) && s.pendingDelete == [w]
    ensures var s1 := Click(s, w);
      && |s1.pendingDelete| == 0
      && IsRow(Click(s1, w).store, w.(isSelected := !w.isSelected))
  {
    var s1 := Click(s, w);
    assert forall v :: v !in s1.pendingDelete;
  }

  /** Long click then back, outside delete mode, returns to where it was. */
  lemma LongClickThenBack(s: Screen, w: Word)
    requires |s.pendingDelete| == 0 && !s.backEnabled
    ensures Back(LongClick(s, w)) == s
  {
  }

  /**
    The top bar's cancel button leaves delete mode without disabling the
    back callback.
   */
  lemma CancelLeavesBackEnabled(s: Screen, i: int)
    requires Valid(s.store) && |s.pendingDelete| == 0 && 0 <= i < |s.store.rows|
    ensures var r := Run(s, [CardLongClicked(i), CancelSelectionPressed]);
      |r.pendingDelete| == 0 && r.backEnabled
  {
    RunTwo(s, CardLongClicked(i), CancelSelectionPressed);
    StepLongClick(s, i);
    var s1 := LongClick(s, Words(s)[i]);
    StepCancelSelection(s1);
  }
}

=== FILE: text_order.dfy ===
/**
  Lexicographic order on strings, as used by `ORDER BY word ASC`.

  SQLite's default BINARY collation compares the UTF-8 encodings byte by byte,
  and a shorter string that is a prefix of a longer one sorts first. Since a
  Dafny `char` is a Unicode scalar value, and UTF-8 byte order agrees with
  code-point order, comparing characters one at a time gives the same order.
 */
module TextOrder {

  /** `a` sorts no later than `b`: it is a prefix of `b`, or at the first difference its character is smaller. */
  function LexLe(a: string, b: string): (r: bool)
    ensures r <==> a <= b || exists i :: DiffersFirstAt(a, b, i) && a[i] < b[i]
    decreases |a|
  {
    if |a| == 0 then
      true
    else if |b| == 0 then
      false
    else if a[0] != b[0] then
      FirstCharDecides(a, b);
      a[0] < b[0]
    else
      FirstCharEqual(a, b);
      LexLe(a[1..], b[1..])
  }

  /** Position `i` is the first where `a` and `b` differ. */
  predicate DiffersFirstAt(a: string, b: string, i: int)
  {
    0 <= i < |a| && i < |b| && a[..i] == b[..i] && a[i] != b[i]
  }

  lemma FirstCharDecides(a: string, b: string)
    requires |a| > 0 && |b| > 0 && a[0] != b[0]
    ensures (a <= b || exists i :: DiffersFirstAt(a, b, i) && a[i] < b[i]) <==> a[0] < b[0]
  {
    assert DiffersFirstAt(a, b, 0);
    assert forall i :: DiffersFirstAt(a, b, i) ==> i == 0;
  }

  lemma FirstCharEqual(a: string, b: string)
    requires |a| > 0 && |b| > 0 && a[0] == b[0]
    ensures (a <= b || exists i :: DiffersFirstAt(a, b, i) && a[i] < b[i]) <==>
      (a[1..] <= b[1..] || exists i :: DiffersFirstAt(a[1..], b[1..], i) && a[1..][i] < b[1..][i])
  {
    assert a == [a[0]] + a[1..];
    assert b == [b[0]] + b[1..];
    forall i | 0 < i <= |a| && i <= |b|
      ensures a[..i] == b[..i] <==> a[1..][..i - 1] == b[1..][..i - 1]
    {
      assert a[..i] == [a[0]] + a[1..][..i - 1];
      assert b[..i] == [b[0]] + b[1..][..i - 1];
    }
    if exists i :: DiffersFirstAt(a, b, i) && a[i] < b[i] {
      var i :| DiffersFirstAt(a, b, i) && a[i] < b[i];
      assert i > 0;
      assert DiffersFirstAt(a[1..], b[1..], i - 1);
    }
    if exists i :: DiffersFirstAt(a[1..], b[1..], i) && a[1..][i] < b[1..][i] {
      var i :| DiffersFirstAt(a[1..], b[1..], i) && a[1..][i] < b[1..][i];
      assert DiffersFirstAt(a, b, i + 1);
    }
  }

  lemma {:induction false} LexLeReflexive(a: string)
    ensures LexLe(a, a)
    decreases |a|
  {
    if |a| > 0 {
      LexLeReflexive(a[1..]);
    }
  }

  lemma {:induction false} LexLeTotal(a: string, b: string)
    ensures LexLe(a, b) || LexLe(b, a)
    decreases |a|
  {
    if |a| > 0 && |b| > 0 && a[0] == b[0] {
      LexLeTotal(a[1..], b[1..]);
    }
  }

  lemma {:induction false} LexLeTransitive(a: string, b: string, c: string)
    requires LexLe(a, b) && LexLe(b, c)
    ensures LexLe(a, c)
    decreases |a|
  {
    if |a| > 0 && a[0] == b[0] && b[0] == c[0] {
      LexLeTransitive(a[1..], b[1..], c[1..]);
    }
  }

  lemma {:induction false} LexLeAntisymmetric(a: string, b: string)
    requires LexLe(a, b) && LexLe(b, a)
    ensures a == b
    decreases |a|
  {
    if |a| > 0 {
      LexLeAntisymmetric(a[1..], b[1..]);
      assert a == [a[0]] + a[1..];
      assert b == [b[0]] + b[1..];
    }
  }
}

=== FILE: words_database.dfy ===
/**
  The `words` table and the operations of its data-access object.

  The table is a map from primary key to row. Alongside it the store keeps
  the largest key ever handed out, which is what SQLite's AUTOINCREMENT
  bookkeeping remembers: a generated key is always one past it, so a key is
  never reused even after its row is deleted. Each call is one atomic step.
 */
module WordsDatabase {
  import opened TextOrder

  /** One row. Two words are equal exactly when all three fields are equal. */
  datatype Word = Word(id: int, text: string, isSelected: bool)

  /** A word as the add-word dialog builds it: id left at 0, not selected. */
  function NewWord(text: string): (w: Word)
    ensures w.text == text && w.id == 0 && !w.isSelected
  {
    Word(0, text, false)
  }

  /** `lastId` is the AUTOINCREMENT high-water mark. */
  datatype Store = Store(rows: map<int, Word>, lastId: int)

  /** The empty table of a freshly created database. */
  const EmptyStore: Store := Store(map[], 0)

  /**
    Every row sits under its own id; id 0 is never stored (it means "generate
    one"); no id exceeds the high-water mark.
   */
  predicate Valid(st: Store)
  {
    && 0 <= st.lastId
    && forall k :: k in st.rows ==> st.rows[k].id == k && k != 0 && k <= st.lastId
  }

  /** `w` is, field for field, the row stored under its id. */
  predicate IsRow(st: Store, w: Word)
  {
    w.id in st.rows && st.rows[w.id] == w
  }

  /** Some row carries exactly the text `t`. */
  predicate HasText(st: Store, t: string)
  {
    exists k :: k in st.rows && st.rows[k].text == t
  }

  /**
    The key an insert of `w` uses when the AUTOINCREMENT mark is `mark`: an
    id of 0 is bound as NULL, so SQLite generates one past the mark; any other
    id is used as given.
   */
  function KeyFor(mark: int, w: Word): int
  {
    if w.id == 0 then mark + 1 else w.id
  }

  /** The AUTOINCREMENT mark after inserting `w`: the larger of the old mark and the key used. */
  function NextMark(mark: int, w: Word): int
  {
    var id := KeyFor(mark, w);
    if id > mark then id else mark
  }

  /**
    `@Insert(onConflict = REPLACE)` of one word. An id of 0 is bound as NULL,
    so the row gets a freshly generated key; any other id is used as given and
    replaces the row already stored under it.
   */
  function Insert(st: Store, w: Word): (r: Store)
    requires Valid(st)
    ensures Valid(r)
    ensures w.id != 0 ==> IsRow(r, w) && r.rows.Keys == st.rows.Keys + {w.id}
    ensures w.id != 0 ==> r.lastId == if w.id > st.lastId then w.id else st.lastId
    ensures w.id == 0 ==>
      && r.lastId == st.lastId + 1
      && r.lastId !in st.rows
      && r.rows.Keys == st.rows.Keys + {r.lastId}
      && r.rows[r.lastId] == w.(id := r.lastId)
    ensures forall k :: k in st.rows && k != w.id ==> r.rows[k] == st.rows[k]
  {
    var id := KeyFor(st.lastId, w);
    Store(st.rows[id := w.(id := id)], NextMark(st.lastId, w))
  }

  /** The AUTOINCREMENT mark after inserting `ws` one after another, starting from `mark`. */
  function MarkAfter(mark: int, ws: seq<Word>): int
    decreases |ws|
  {
    if ws == [] then mark else NextMark(MarkAfter(mark, ws[..|ws| - 1]), ws[|ws| - 1])
  }

  /** The key that argument `i` of `insertAll(ws)` is written under, starting from `mark`. */
  function KeyAt(mark: int, ws: seq<Word>, i: int): int
    requires 0 <= i < |ws|
  {
    KeyFor(MarkAfter(mark, ws[..i]), ws[i])
  }

  /**
    `insertAll(vararg words)`: the words are inserted one after another. Each
    argument ends up stored under its key unless a later argument names that
    same key; rows no argument names are untouched, and no other key appears.
   */
  function InsertAll(st: Store, ws: seq<Word>): (r: Store)
    requires Valid(st)
    ensures Valid(r)
    ensures r.lastId == MarkAfter(st.lastId, ws)
    ensures st.rows.Keys <= r.rows.Keys
    ensures forall k :: k in r.rows ==> k in st.rows || exists i :: 0 <= i < |ws| && k == KeyAt(st.lastId, ws, i)
    ensures forall k :: k in st.rows && (forall w :: w in ws ==> w.id != k) ==> r.rows[k] == st.rows[k]
    ensures forall i :: 0 <= i < |ws| && (forall j :: i < j < |ws| ==> ws[j].id != KeyAt(st.lastId, ws, i)) ==>
      IsRow(r, ws[i].(id := KeyAt(st.lastId, ws, i)))
    decreases |ws|
  {
    if ws == [] then st
    else
      var p := ws[..|ws| - 1];
      var w := ws[|ws| - 1];
      var rp := InsertAll(st, p);
      InsertLastKeepsUntouched(st, ws, rp);
      InsertLastStoresEach(st, ws, rp);
      KeyAtOfPrefix(st.lastId, ws);
      Insert(rp, w)
  }

  /** The step of `InsertAll` for rows no argument names. */
  lemma InsertLastKeepsUntouched(st: Store, ws: seq<Word>, rp: Store)
    requires Valid(st) && Valid(rp) && ws != []
    requires st.rows.Keys <= rp.rows.Keys
    requires forall k :: k in st.rows && (forall w :: w in ws[..|ws| - 1] ==> w.id != k) ==> rp.rows[k] == st.rows[k]
    ensures var r := Insert(rp, ws[|ws| - 1]);
      && st.rows.Keys <= r.rows.Keys
      && forall k :: k in st.rows && (forall w :: w in ws ==> w.id != k) ==> r.rows[k] == st.rows[k]
  {
    var p := ws[..|ws| - 1];
    assert forall v :: v in p ==> v in ws;
    assert ws[|ws| - 1] in ws;
  }

  /** The step of `InsertAll` for the arguments themselves. */
  lemma InsertLastStoresEach(st: Store, ws: seq<Word>, rp: Store)
    requires Valid(st) && Valid(rp) && ws != []
    requires rp.lastId == MarkAfter(st.lastId, ws[..|ws| - 1])
    requires var p := ws[..|ws| - 1];
      forall i :: 0 <= i < |p| && (forall j :: i < j < |p| ==> p[j].id != KeyAt(st.lastId, p, i)) ==>
        IsRow(rp, p[i].(id := KeyAt(st.lastId, p, i)))
    ensures var r := Insert(rp, ws[|ws| - 1]);
      forall i :: 0 <= i < |ws| && (forall j :: i < j < |ws| ==> ws[j].id != KeyAt(st.lastId, ws, i)) ==>
        IsRow(r, ws[i].(id := KeyAt(st.lastId, ws, i)))
  {
    var p := ws[..|ws| - 1];
    var w := ws[|ws| - 1];
    var r := Insert(rp, w);
    KeyAtOfPrefix(st.lastId, ws);
    forall i | 0 <= i < |ws| && (forall j :: i < j < |ws| ==> ws[j].id != KeyAt(st.lastId, ws, i))
      ensures IsRow(r, ws[i].(id := KeyAt(st.lastId, ws, i)))
    {
      var k := KeyAt(st.lastId, ws, i);
      if i < |p| {
        assert p[i] == ws[i];
        assert forall j :: i < j < |p| ==> p[j] == ws[j];
        assert IsRow(rp, p[i].(id := k));
        if w.id == 0 {
          assert k <= rp.lastId;
        } else {
          assert ws[|ws| - 1].id != k;
        }
      }
    }
  }

  /** Dropping the last argument changes no earlier argument's key. */
  lemma KeyAtOfPrefix(mark: int, ws: seq<Word>)
    requires ws != []
    ensures forall i :: 0 <= i < |ws| - 1 ==> KeyAt(mark, ws[..|ws| - 1], i) == KeyAt(mark, ws, i)
    ensures KeyAt(mark, ws, |ws| - 1) == KeyFor(MarkAfter(mark, ws[..|ws| - 1]), ws[|ws| - 1])
  {
    forall i | 0 <= i < |ws| - 1
      ensures KeyAt(mark, ws[..|ws| - 1], i) == KeyAt(mark, ws, i)
    {
      assert ws[..|ws| - 1][..i] == ws[..i];
    }
  }

  /** The mark never goes down as more words are inserted. */
  lemma {:induction false} MarkAfterGrows(mark: int, ws: seq<Word>, i: int, j: int)
    requires 0 <= i <= j <= |ws|
    ensures mark <= MarkAfter(mark, ws[..i]) <= MarkAfter(mark, ws[..j])
    decreases j
  {
    if j > 0 {
      assert ws[..j][..j - 1] == ws[..j - 1];
      if i < j {
        MarkAfterGrows(mark, ws, i, j - 1);
      } else {
        MarkAfterGrows(mark, ws, j - 1, j - 1);
      }
    }
  }

  /**
    Within one `insertAll`, every word with id 0 gets a key above the mark
    the call started from, and no two of them get the same key.
   */
  lemma GeneratedKeysFresh(mark: int, ws: seq<Word>, i: int, j: int)
    requires 0 <= i < j < |ws| && ws[i].id == 0 && ws[j].id == 0
    ensures mark < KeyAt(mark, ws, i) < KeyAt(mark, ws, j)
  {
    MarkAfterGrows(mark, ws, i, i + 1);
    MarkAfterGrows(mark, ws, i + 1, j);
    assert ws[..i + 1][..i] == ws[..i];
  }

  /**
    `@Update` of one word: the row whose key equals the word's id is replaced;
    when there is no such row nothing happens.
   */
  function Update(st: Store, w: Word): (r: Store)
    requires Valid(st)
    ensures Valid(r)
    ensures r.rows.Keys == st.rows.Keys && r.lastId == st.lastId
    ensures w.id in st.rows ==> IsRow(r, w)
    ensures forall k :: k in st.rows && k != w.id ==> r.rows[k] == st.rows[k]
  {
    if w.id in st.rows then Store(st.rows[w.id := w], st.lastId) else st
  }

  /** `updateUsers(vararg words)`: the words are updated one after another. */
  function UpdateAll(st: Store, ws: seq<Word>): (r: Store)
    requires Valid(st)
    ensures Valid(r)
    ensures r.rows.Keys == st.rows.Keys && r.lastId == st.lastId
    ensures forall k :: k in st.rows && (forall w :: w in ws ==> w.id != k) ==> r.rows[k] == st.rows[k]
    decreases |ws|
  {
    if ws == [] then st
    else
      var r := UpdateAll(Update(st, ws[0]), ws[1..]);
      assert forall w :: w in ws[1..] ==> w in ws;
      r
  }

  /**
    `@Delete(vararg word)`: one `DELETE ... WHERE id = ?` per argument. Only
    the id of each argument matters; its other fields are not compared.
   */
  function Delete(st: Store, ws: seq<Word>): (r: Store)
    requires Valid(st)
    ensures Valid(r) && r.lastId == st.lastId
    ensures forall k :: k in r.rows <==> k in st.rows && forall w :: w in ws ==> w.id != k
    ensures forall k :: k in r.rows ==> r.rows[k] == st.rows[k]
    decreases |ws|
  {
    if ws == [] then st
    else
      var r := Delete(Store(st.rows - {ws[0].id}, st.lastId), ws[1..]);
      assert forall w :: w in ws <==> w == ws[0] || w in ws[1..];
      r
  }

  /** `DELETE FROM words`: every row goes; the AUTOINCREMENT mark stays. */
  function DeleteAll(st: Store): (r: Store)
    requires Valid(st)
    ensures Valid(r) && |r.rows| == 0
    ensures r.lastId == st.lastId
  {
    Store(map[], st.lastId)
  }

  /** A non-empty finite set of integers has a least element. */
  lemma {:induction false} MinExists(ks: set<int>)
    requires ks != {}
    ensures exists k :: k in ks && forall j :: j in ks ==> k <= j
    decreases ks
  {
    if forall y :: y !in ks {
      // then `ks` would equal the empty set
      assert false;
    }
    var x :| x in ks;
    var rest := ks - {x};
    assert forall j :: j in ks ==> j == x || j in rest;
    if rest == {} {
      assert forall j :: j in ks ==> x <= j;
    } else {
      MinExists(rest);
      var m :| m in rest && forall j :: j in rest ==> m <= j;
      var k := if x < m then x else m;
      assert k in ks;
      assert forall j :: j in ks ==> k <= j;
    }
  }

  /** The least element of a non-empty set of keys. */
  function MinKey(ks: set<int>): (k: int)
    requires ks != {}
    ensures k in ks && forall j :: j in ks ==> k <= j
  {
    MinExists(ks);
    var k :| k in ks && forall j :: j in ks ==> k <= j;
    k
  }

  /** No word occurs twice. */
  predicate Distinct(ws: seq<Word>)
  {
    forall w :: w in ws ==> multiset(ws)[w] <= 1
  }

  /** The rows in key order, as a scan in rowid order returns them. */
  function Rows(st: Store): (r: seq<Word>)
    requires Valid(st)
    ensures |r| == |st.rows|
    ensures forall w :: w in r <==> IsRow(st, w)
    ensures forall i :: 0 < i < |r| ==> r[i - 1].id < r[i].id
    decreases |st.rows|
  {
    if |st.rows| == 0 then []
    else
      var k := MinKey(st.rows.Keys);
      var rest := Store(st.rows - {k}, st.lastId);
      var tail := Rows(rest);
      assert tail != [] ==> k < tail[0].id by {
        if tail != [] {
          assert IsRow(rest, tail[0]);
        }
      }
      assert forall w :: IsRow(st, w) <==> w == st.rows[k] || IsRow(rest, w);
      [st.rows[k]] + tail
  }

  /** The key-order scan meets every row once. */
  lemma {:induction false} RowsDistinct(st: Store)
    requires Valid(st)
    ensures Distinct(Rows(st))
    decreases |st.rows|
  {
    if |st.rows| > 0 {
      var k := MinKey(st.rows.Keys);
      var rest := Store(st.rows - {k}, st.lastId);
      var tail := Rows(rest);
      RowsDistinct(rest);
      assert Rows(st) == [st.rows[k]] + tail;
      assert st.rows[k] !in tail by {
        assert !IsRow(rest, st.rows[k]);
      }
      assert multiset(Rows(st)) == multiset{st.rows[k]} + multiset(tail);
    }
  }

  /** In a list without duplicates, different positions hold different words. */
  lemma DistinctAt(ws: seq<Word>, i: int, j: int)
    requires Distinct(ws) && 0 <= i < j < |ws|
    ensures ws[i] != ws[j]
  {
    var x := ws[j];
    assert ws == ws[..j] + ws[j..];
    assert ws[j..][0] == x;
    assert ws[..j][i] == ws[i];
    assert multiset(ws)[x] == multiset(ws[..j])[x] + multiset(ws[j..])[x];
    assert x in ws;
  }

  /** `getAll` lists no word twice. */
  lemma GetAllDistinct(st: Store)
    requires Valid(st)
    ensures Distinct(GetAll(st))
  {
    RowsDistinct(st);
    assert multiset(GetAll(st)) == multiset(Rows(st));
  }

  /** Each word's text sorts no later than the next word's. */
  predicate SortedByText(ws: seq<Word>)
  {
    forall i :: 0 < i < |ws| ==> LexLe(ws[i - 1].text, ws[i].text)
  }

  /** Sorted neighbour by neighbour means sorted pair by pair. */
  lemma SortedByTextPairwise(ws: seq<Word>)
    requires SortedByText(ws)
    ensures forall i, j :: 0 <= i < j < |ws| ==> LexLe(ws[i].text, ws[j].text)
  {
    forall i, j | 0 <= i < j < |ws|
      ensures LexLe(ws[i].text, ws[j].text)
    {
      SortedChain(ws, i, j);
    }
  }

  lemma {:induction false} SortedChain(ws: seq<Word>, i: int, j: int)
    requires SortedByText(ws) && 0 <= i < j < |ws|
    ensures LexLe(ws[i].text, ws[j].text)
    decreases j - i
  {
    if j > i + 1 {
      SortedChain(ws, i, j - 1);
      LexLeTransitive(ws[i].text, ws[j - 1].text, ws[j].text);
    }
  }

  /** Inserts `w` before the first word whose text does not sort earlier. */
  function InsertByText(w: Word, ws: seq<Word>): (r: seq<Word>)
    requires SortedByText(ws)
    ensures SortedByText(r)
    ensures multiset(r) == multiset(ws) + multiset{w}
    ensures r != [] && (r[0] == w || (ws != [] && r[0] == ws[0]))
    decreases |ws|
  {
    if ws == [] then [w]
    else if LexLe(w.text, ws[0].text) then
      [w] + ws
    else
      var rest := InsertByText(w, ws[1..]);
      LexLeTotal(w.text, ws[0].text);
      assert multiset(ws) == multiset{ws[0]} + multiset(ws[1..]) by {
        assert ws == [ws[0]] + ws[1..];
      }
      [ws[0]] + rest
  }

  /** Stable insertion sort by text. */
  function SortByText(ws: seq<Word>): (r: seq<Word>)
    ensures SortedByText(r)
    ensures multiset(r) == multiset(ws)
    decreases |ws|
  {
    if ws == [] then []
    else
      assert ws == [ws[0]] + ws[1..];
      InsertByText(ws[0], SortByText(ws[1..]))
  }

  /** `SELECT * FROM words ORDER BY word ASC`. */
  function GetAll(st: Store): (r: seq<Word>)
    requires Valid(st)
    ensures SortedByText(r)
    ensures |r| == |st.rows|
    ensures forall w :: w in r <==> IsRow(st, w)
  {
    var rows := Rows(st);
    var r := SortByText(rows);
    assert |r| == |multiset(r)| == |multiset(rows)| == |rows|;
    assert forall w :: w in r <==> w in multiset(r);
    assert forall w :: w in rows <==> w in multiset(rows);
    r
  }

  /** Keeps the selected words of `ws`, in order. */
  function FilterSelected(ws: seq<Word>): (r: seq<Word>)
    ensures forall w :: w in r <==> w in ws && w.isSelected
    decreases |ws|
  {
    if ws == [] then []
    else
      assert forall w :: w in ws <==> w == ws[0] || w in ws[1..];
      (if ws[0].isSelected then [ws[0]] else []) + FilterSelected(ws[1..])
  }

  /** `SELECT * FROM words WHERE isSelected = true` (no ORDER BY; key order here). */
  function GetSelected(st: Store): (r: seq<Word>)
    requires Valid(st)
    ensures forall w :: w in r <==> IsRow(st, w) && w.isSelected
  {
    FilterSelected(Rows(st))
  }

  /**
    Data-class equality: a word that differs from a row in any one field,
    the selection flag included, is not that row.
   */
  lemma WordEquality(a: Word, b: Word)
    ensures a == b <==> a.id == b.id && a.text == b.text && a.isSelected == b.isSelected
  {
  }

  /**
    A word built by the add-word dialog never replaces anything: it lands
    under a key that was not in use, unselected, and nothing else changes.
   */
  lemma InsertNewWordAddsOneRow(st: Store, t: string)
    requires Valid(st)
    ensures var r := Insert(st, NewWord(t));
      && r.lastId !in st.rows
      && r.rows == st.rows[r.lastId := Word(r.lastId, t, false)]
      && |r.rows| == |st.rows| + 1
  {
    var r := Insert(st, NewWord(t));
    assert r.rows.Keys == st.rows.Keys + {r.lastId};
  }

  /** Deleting the row just inserted gives the table back. */
  lemma {:induction false} InsertThenDeleteRestores(st: Store, t: string)
    requires Valid(st)
    ensures var r := Insert(st, NewWord(t));
      Delete(r, [r.rows[r.lastId]]).rows == st.rows
  {
    var r := Insert(st, NewWord(t));
    var d := Delete(r, [r.rows[r.lastId]]);
    assert r.rows[r.lastId].id == r.lastId;
    assert d.rows.Keys == st.rows.Keys;
  }

  /** Updating a row to what it already is changes nothing. */
  lemma UpdateWithSameRow(st: Store, w: Word)
    requires Valid(st) && IsRow(st, w)
    ensures Update(st, w) == st
  {
  }

  /**
    Re-inserting words exactly as they are stored (REPLACE with the same
    content) leaves the table and its AUTOINCREMENT mark as they were.
   */
  lemma {:induction false} InsertAllOfRowsKeepsStore(st: Store, ws: seq<Word>)
    requires Valid(st) && forall w :: w in ws ==> IsRow(st, w)
    ensures InsertAll(st, ws) == st
    decreases |ws|
  {
    if ws != [] {
      var p := ws[..|ws| - 1];
      var w := ws[|ws| - 1];
      assert forall v :: v in p ==> v in ws;
      InsertAllOfRowsKeepsStore(st, p);
      assert w in ws;
      assert st.rows[w.id := w] == st.rows;
      assert Insert(st, w) == st;
    }
  }

  /** Updating rows to what they already are changes nothing. */
  lemma {:induction false} UpdateAllOfRowsKeepsStore(st: Store, ws: seq<Word>)
    requires Valid(st) && forall w :: w in ws ==> IsRow(st, w)
    ensures UpdateAll(st, ws) == st
    decreases |ws|
  {
    if ws != [] {
      assert ws[0] in ws;
      UpdateWithSameRow(st, ws[0]);
      assert forall w :: w in ws[1..] ==> w in ws;
      UpdateAllOfRowsKeepsStore(st, ws[1..]);
    }
  }

  /** The selected words are exactly the listed words whose flag is set. */
  lemma SelectedAreListed(st: Store)
    requires Valid(st)
    ensures forall w :: w in GetSelected(st) <==> w in GetAll(st) && w.isSelected
  {
  }

  /** After `deleteAll`, `getAll` and `getSelected` are empty. */
  lemma DeleteAllEmptiesQueries(st: Store)
    requires Valid(st)
    ensures GetAll(DeleteAll(st)) == []
    ensures GetSelected(DeleteAll(st)) == []
  {
  }
}
